=== FILE: README.md ===
# whereisbig, modelled in Dafny

`whereisbig` is a small disk-usage tool. It takes a directory and a minimum size.
It walks the directory, computes the total size of every file and subdirectory,
and prints an indented tree. The tree keeps only the entries whose size reaches
the threshold. This project models the two pieces of pure logic inside the tool
and proves properties about them.

- **The crawler** (`Crawler::walk`, `dir_entry`, `walk_entry`, `DirTree`). It
  aggregates first and filters second. A directory's size is the sum of all of
  its walkable children before filtering. Its stored children are only those
  at or above the threshold (inclusive `>=`). The root-level list is filtered
  once more. An entry that cannot be walked is skipped. Only a root that cannot
  be listed is an error.
- **The renderer** (`TreeRenderer::render_tree`, `render_tree_recursion`,
  `render_record`) and the unit table (`Size::unit_multiplier`, `Display for
  SizeUnit`). The renderer lists the forest in pre-order. Roots are at level 0,
  and each child is one level below its parent. Each line is one tab per level,
  then the entry's name, a space, and the size in the display unit.

The filesystem is replaced by a finite input tree, `FileSystem.Entry`. An entry
is `Broken` (the listing yielded an error), `File(name, meta)` with the result
of the metadata read, or `Dir(name, listing)` with the result of listing it.
With that input the crawler is a pure recursive function. Sizes and the
threshold are unbounded naturals.

Files:

- `file_system.dfy` (module `FileSystem`): the abstract input, `IoResult`, and
  the reference total `Bytes`. `Bytes` is the total length of the files
  reachable through entries that can be walked.
- `dir_tree.dfy` (module `DirTrees`): `DirTree` and the inclusive filter
  `Keep`. `Prune` is the same filter applied as a separate pass over an
  unfiltered tree. `Aggregated` is the shape of an unfiltered crawl.
- `crawler.dfy` (module `Crawler`): `WalkEntry`, `DirEntry`, `WalkEntries`
  (the `filter_map(... .ok())`), `Walk`, and the lemmas about them.
- `size_unit.dfy` (module `Units`): `SizeUnit`, its multipliers and symbols.
- `renderer.dfy` (module `Renderer`): the rendered records, the line text, and
  `Parse`, which reads a listing back into a tree outline.

## Model

| member | source | states |
|---|---|---|
| DirTrees.Keep | src/crawler.rs:46-49 | The filter keeps exactly the trees whose size is at least the threshold and never adds one. |
| DirTrees.KeepConcat | src/crawler.rs:46-49 | The filter keeps the original order, because it distributes over concatenation. |
| DirTrees.KeepBelowSplit | src/crawler.rs:44-49 | The sizes of the kept trees plus the sizes of the dropped trees add up to the sum over all of them. |
| DirTrees.Prune | src/crawler.rs:46-49 | Filtering a tree's children at every level keeps each node's kind, path and size, and leaves only children at or above the threshold. |
| DirTrees.PruneTwice | src/crawler.rs:44-55 | Filtering with one threshold and then another equals filtering once with the larger threshold. |
| DirTrees.AggregatedSizeIsFileBytes | src/crawler.rs:44-45 | In a tree where each directory's size is the sum of its children's sizes, each node's size is the total length of the files beneath it. |
| Crawler.WalkEntry | src/crawler.rs:40-64 | An entry is walked exactly when it is not broken, not a file with failed metadata, and not an unlistable directory. A walked file has no children and its metadata length as size. A walked node's path is the parent's path plus the entry's name. Its size is the total length of the reachable files. Every stored child is at or above the threshold. A failed entry stands for zero bytes. |
| Crawler.DirEntry | src/crawler.rs:32-38 | Listing fails exactly when the directory cannot be listed. Otherwise every entry that can be walked appears as its own walk, and the children's sizes add up to the bytes reachable from the listing. |
| Crawler.WalkEntries | src/crawler.rs:33-36 | Every entry that can be walked appears in the result as its own walk, including an empty file or directory. The sizes sum to the reachable bytes of the listing, there are no more results than entries, and each result is a child of the given path. |
| Crawler.WalkConcat | src/crawler.rs:25-28 | The root-level list keeps listing order: walking a listing made of two parts lists the first part's roots, then the second part's. |
| Crawler.WalkEntriesSingleton | src/crawler.rs:35 | A single entry that can be walked yields exactly its own walk. With WalkEntriesConcat and FailedEntryIsSkipped, this fixes the result: the walks of the walkable entries, in listing order. |
| Crawler.Walk | src/crawler.rs:23-30 | The walk fails exactly when the root cannot be listed. Otherwise every returned root-level node is at or above the threshold and is a child of the root, and the walk of each walkable root entry is listed if and only if the entry's reachable bytes reach the threshold. |
| Crawler.AggregateBeforeFilter | src/crawler.rs:43-55 | A listable directory is always walked. Its stored children are the walked children that reach the threshold, in order. The walk of each walkable entry of the listing is a stored child if and only if its size reaches the threshold. Its size counts the dropped children too. |
| Crawler.WalkIsPrunedAggregate | src/crawler.rs:40-64 | Walking with a threshold equals walking without one and then pruning, so the filter never feeds back into sizes. |
| Crawler.UnfilteredWalkIsAggregated | src/crawler.rs:43-55 | Without a threshold, each walked directory's size is the sum of its children's sizes at every level. |
| Crawler.SizeIsReachableFileBytes | src/crawler.rs:40-63 | For any threshold, a walked node's size is the total length of all files beneath it in the unfiltered walk. |
| Crawler.ThresholdsNest | src/crawler.rs:44-55 | For thresholds low <= high, both walks succeed or fail together. The high walk is the low walk pruned further, and the root sizes agree. |
| Crawler.FailedEntryIsAbsent | src/crawler.rs:33-36 | A failing entry gives the same result as removing it. This holds for the directory that contains it and for the root walk, which still succeeds. |
| Crawler.FailedEntryIsSkipped | src/crawler.rs:35 | A failing entry in a listing is dropped without affecting its neighbours. |
| Crawler.WalkIsPrunedForest | src/crawler.rs:23-30 | The root walk with a threshold is the unfiltered root walk with every directory pruned and then the root-level list filtered. |
| Crawler.RootThresholdIsInclusive | src/crawler.rs:27 | A root-level entry is listed if and only if its size is at least the threshold, so equality is kept. |
| Crawler.ChildThresholdIsInclusive | src/crawler.rs:48 | A child of a directory is kept if and only if its size is at least the threshold, so equality is kept. |
| Crawler.ExampleWalk | src/crawler.rs:40-55 | Worked example: big.txt (2 000 000 bytes) and sub/ holding small.txt (500) and bigger.txt (3 000 000), threshold 1 000 000. The result lists big.txt, then sub with size 3 000 500 and only bigger.txt inside. |
| Units.Multiplier | src/main.rs:38-45 | A unit's multiplier is 1000 raised to the unit's rank: 1, 10^3, 10^6, 10^9. |
| Units.MultiplierIncreasing | src/main.rs:38-45 | A larger unit has a strictly larger multiplier, equal to the smaller one times a power of 1000. |
| Units.Symbol | src/main.rs:61-71 | A unit displays as one character: b, K, M or G. |
| Units.SymbolRoundTrip | src/main.rs:61-71 | Every unit displays as one of b, K, M, G, and the symbol gives the unit back. |
| Units.SymbolInjective | src/main.rs:61-71 | Two units display the same symbol if and only if they are the same unit. |
| Renderer.RenderTree | src/main.rs:92-97 | The listing has one line per node of the forest, and it starts with the first root at level 0. |
| Renderer.RenderAt | src/main.rs:99-105 | A subtree's listing has one line per node. The node's own line comes first, and every later line is at a deeper level. |
| Renderer.RenderEach | src/main.rs:93-95 | A forest rendered at some level has one line per node. No line is shallower than that level, and the first tree's line opens it. |
| Renderer.RootsAtLevelZero | src/main.rs:92-97 | The lines at level 0 are exactly the roots of the forest, in forest order. |
| Renderer.ChildrenOneLevelDeeper | src/main.rs:99-105 | Within a node's listing, the lines one level below the node are exactly its children, in stored order. |
| Renderer.ParseRenderRoundTrip | src/main.rs:92-105 | Reading the listing back by indentation gives the forest's names, sizes and child order. So the walk is pre-order, each line comes just before its subtree, and each child sits one level below its parent. |
| Renderer.SizeText | src/main.rs:47-59 | The displayed size is the formatted value of bytes over the unit's multiplier, followed by the unit's symbol. |
| Renderer.RecordLine | src/main.rs:107-117 | A line at level d is d tabs, then the name, a space, the size text and a line break, in that order. |
| Renderer.LineIndentIsLevel | src/main.rs:107-110 | If the name does not begin with a tab, a line begins with exactly as many tabs as its level. |
| Renderer.RenderLines | src/main.rs:92-117 | The output has exactly one line per node of the forest. |
| Renderer.RenderLinesShowRecords | src/main.rs:92-117 | Line i of the output is the i-th pre-order record: level tabs, then its name, then a space, its size text and a line break. If no name starts with a tab, the leading tabs of each line give its record's level. |
| Renderer.WalkIsRenderable | src/main.rs:114 | Every node a successful walk returns has a final path component, so the renderer can show its name. |
| Renderer.NestingExample | src/main.rs:99-105 | A root, a child and a grandchild are listed in that order, at levels 0, 1 and 2. |

## Left out

- Real filesystem calls are not modelled: `read_dir`, `DirEntry::metadata`, `Path::is_dir` and symlink following. They become the finite `Entry` input, whose entries and listings may fail. The input states each entry's kind directly. A directory whose `is_dir` check fails is walked as a file, so the input must record it as `File`. Symlink cycles cannot be expressed in a finite input.
- A root that is a regular file makes `read_dir` fail, so the model passes it to `Walk` as an `Unreadable` listing. It is not a single-node tree.
- Floating point is not modelled: the `f64` arithmetic in `Size::size_in_bytes` and `Size::from_size_in_bytes`, including the truncating `as u64` cast. `Walk` takes the threshold as a byte count. `SizeText` takes the formatting of `bytes / multiplier` as a parameter `show`, so float formatting stays abstract.
- `reformation` parsing of `Size` and `SizeUnit` and `clap` argument parsing are not modelled. They are derive macros of other crates. That includes the default display unit K.
- Stdout locking and write errors are not modelled. Rendering is a pure function that returns the lines.
- Crawler.WalkEntry: sizes are unbounded naturals. The `u64` sum in the source panics or wraps on overflow, and the model does not show that.
- Renderer.RenderAt: levels are unbounded naturals. In the source, `level + 1` is a `u32`, which cannot overflow for any real directory depth.
- Renderer.LineIndentIsLevel: requires the name not to begin with a tab. A name may begin with a tab or contain a line break, since file names on Unix may hold both. The source prints such a name as it is, so its line's indentation no longer shows its level.
- Renderer.RenderTree: requires every node's path to have a final component. In the source, `file_name().unwrap().to_str().unwrap()` panics on such a path or on a name that is not valid UTF-8. Names are plain strings in the model. `Renderer.WalkIsRenderable` shows that crawler output always meets the requirement.

=== FILE: crawler.dfy ===
/**
  The crawler: aggregate every directory's size bottom-up, then filter each
  directory's children (and finally the root-level list) with an inclusive
  threshold. Entries that cannot be walked are skipped; only a root that cannot
  be listed is an error.
 */
module Crawler {
  import opened FileSystem
  import opened DirTrees

  /** Walks one entry of the directory at `parent`. A file is its metadata
      length; a directory is the sum of all its walkable children, of which only
      those at or above the threshold are kept. */
  function WalkEntry(threshold: nat, parent: Path, e: Entry): (r: IoResult<DirTree>)
    decreases e
    ensures r.Ok? <==> !Fails(e)
    ensures r.Ok? ==> Rooted(parent, r.value) && r.value.path == parent + [e.name]
    ensures r.Ok? ==> r.value.isDir == e.Dir?
    ensures r.Ok? && e.File? ==> r.value.children == [] && r.value.size == e.meta.value
    ensures r.Ok? ==> r.value.size == Bytes(e)
    ensures r.Err? ==> Bytes(e) == 0
    ensures r.Ok? ==> forall c :: c in r.value.children ==> c.size >= threshold
  {
    match e
    case Broken => Err
    case Dir(name, listing) =>
      var path := parent + [name];
      var all := DirEntry(threshold, path, listing);
      if all.Err? then Err
      else
        Ok(DirTree(true, path, SumSizes(all.value), Keep(threshold, all.value)))
    case File(name, meta) =>
      if meta.Err? then Err
      else Ok(DirTree(false, parent + [name], meta.value, []))
  }

  /** Lists the directory at `path` and walks every entry, keeping the ones
      that succeed (unfiltered). Only a failure to list is an error. */
  function DirEntry(threshold: nat, path: Path, listing: Listing): (r: IoResult<seq<DirTree>>)
    decreases listing
    ensures r.Err? <==> listing.Unreadable?
    ensures r.Ok? ==> SumSizes(r.value) == BytesAll(listing.entries)
    ensures r.Ok? ==> forall c :: c in r.value ==> Rooted(path, c)
    ensures r.Ok? ==> forall i :: 0 <= i < |listing.entries| && !Fails(listing.entries[i]) ==>
                        WalkEntry(threshold, path, listing.entries[i]).value in r.value
  {
    match listing
    case Unreadable => Err
    case Listed(es) => Ok(WalkEntries(threshold, path, es))
  }

  /** The entries of one listing that can be walked, walked, in listing order. */
  function WalkEntries(threshold: nat, path: Path, es: seq<Entry>): (r: seq<DirTree>)
    decreases es
    ensures |r| <= |es|
    ensures SumSizes(r) == BytesAll(es)
    ensures forall c :: c in r ==> Rooted(path, c)
    ensures forall i :: 0 <= i < |es| && !Fails(es[i]) ==> WalkEntry(threshold, path, es[i]).value in r
  {
    if es == [] then []
    else
      var h := WalkEntry(threshold, path, es[0]);
      var head := if h.Ok? then [h.value] else [];
      var rest := WalkEntries(threshold, path, es[1..]);
      SumSizesConcat(head, rest);
      head + rest
  }

  /** Walks the directory `root`: its walkable entries at or above the
      threshold, or an error when `root` itself cannot be listed. */
  function Walk(threshold: nat, root: Path, listing: Listing): (r: IoResult<seq<DirTree>>)
    ensures r.Err? <==> listing.Unreadable?
    ensures r.Ok? ==> forall n :: n in r.value ==> n.size >= threshold && Rooted(root, n)
    ensures r.Ok? ==> |r.value| <= |listing.entries|
    ensures r.Ok? ==> forall i :: 0 <= i < |listing.entries| && !Fails(listing.entries[i]) ==>
              (WalkEntry(threshold, root, listing.entries[i]).value in r.value <==> Bytes(listing.entries[i]) >= threshold)
  {
    var all := DirEntry(threshold, root, listing);
    if all.Err? then Err else Ok(Keep(threshold, all.value))
  }

  /** A directory's size counts the children the filter drops as well as the
      ones it keeps, and its stored children are the walked children at or above
      the threshold, in listing order. */
  lemma AggregateBeforeFilter(threshold: nat, parent: Path, name: string, es: seq<Entry>)
    ensures var all := WalkEntries(threshold, parent + [name], es);
            var r := WalkEntry(threshold, parent, Dir(name, Listed(es)));
            && r.Ok?
            && r.value.children == Keep(threshold, all)
            && r.value.size == SumSizes(r.value.children) + SumSizes(Below(threshold, all))
            && forall i :: 0 <= i < |es| && !Fails(es[i]) ==>
                 var c := WalkEntry(threshold, parent + [name], es[i]).value;
                 c.size >= threshold <==> c in r.value.children
  {
    KeepBelowSplit(threshold, WalkEntries(threshold, parent + [name], es));
  }

  /** Walking with a threshold is walking without one and then filtering every
      directory's children: the filter never feeds back into the sizes. */
  lemma {:induction false} WalkIsPrunedAggregate(threshold: nat, parent: Path, e: Entry)
    decreases e
    ensures WalkEntry(threshold, parent, e).Ok? == WalkEntry(0, parent, e).Ok?
    ensures WalkEntry(threshold, parent, e).Ok? ==>
              WalkEntry(threshold, parent, e).value == Prune(threshold, WalkEntry(0, parent, e).value)
  {
    match e
    case Broken =>
    case File(_, _) =>
    case Dir(name, listing) =>
      if listing.Listed? {
        var path := parent + [name];
        var all := WalkEntries(0, path, listing.entries);
        WalkEntriesArePruned(threshold, path, listing.entries);
        KeepEverything(all);
      }
  }

  lemma {:induction false} WalkEntriesArePruned(threshold: nat, path: Path, es: seq<Entry>)
    decreases es
    ensures WalkEntries(threshold, path, es) == PruneEach(threshold, WalkEntries(0, path, es))
  {
    if es != [] {
      WalkIsPrunedAggregate(threshold, path, es[0]);
      WalkEntriesArePruned(threshold, path, es[1..]);
      var h := WalkEntry(0, path, es[0]);
      var head := if h.Ok? then [h.value] else [];
      PruneEachConcat(threshold, head, WalkEntries(0, path, es[1..]));
    }
  }

  /** Without a threshold, every directory's size is the sum of its children's. */
  lemma {:induction false} UnfilteredWalkIsAggregated(parent: Path, e: Entry)
    decreases e
    ensures WalkEntry(0, parent, e).Ok? ==> Aggregated(WalkEntry(0, parent, e).value)
  {
    match e
    case Broken =>
    case File(_, _) =>
    case Dir(name, listing) =>
      if listing.Listed? {
        var all := WalkEntries(0, parent + [name], listing.entries);
        UnfilteredEntriesAreAggregated(parent + [name], listing.entries);
        KeepEverything(all);
      }
  }

  lemma {:induction false} UnfilteredEntriesAreAggregated(path: Path, es: seq<Entry>)
    decreases es
    ensures forall c :: c in WalkEntries(0, path, es) ==> Aggregated(c)
  {
    if es != [] {
      UnfilteredWalkIsAggregated(path, es[0]);
      UnfilteredEntriesAreAggregated(path, es[1..]);
    }
  }

  /** Whatever the threshold, a walked node's size is the total length of the
      files reachable beneath it through entries that could be walked. */
  lemma SizeIsReachableFileBytes(threshold: nat, parent: Path, e: Entry)
    ensures WalkEntry(threshold, parent, e).Ok? ==>
              WalkEntry(threshold, parent, e).value.size == FileBytes(WalkEntry(0, parent, e).value)
  {
    WalkIsPrunedAggregate(threshold, parent, e);
    UnfilteredWalkIsAggregated(parent, e);
    if WalkEntry(0, parent, e).Ok? {
      AggregatedSizeIsFileBytes(WalkEntry(0, parent, e).value);
    }
  }

  /** Two thresholds give the same node sizes: the walk with the larger one is
      the walk with the smaller one, filtered further. */
  lemma ThresholdsNest(low: nat, high: nat, parent: Path, e: Entry)
    requires low <= high
    ensures WalkEntry(low, parent, e).Ok? == WalkEntry(high, parent, e).Ok?
    ensures WalkEntry(high, parent, e).Ok? ==>
              && WalkEntry(high, parent, e).value == Prune(high, WalkEntry(low, parent, e).value)
              && WalkEntry(high, parent, e).value.size == WalkEntry(low, parent, e).value.size
  {
    WalkIsPrunedAggregate(low, parent, e);
    WalkIsPrunedAggregate(high, parent, e);
    if WalkEntry(0, parent, e).Ok? {
      PruneTwice(low, high, WalkEntry(0, parent, e).value);
    }
  }

  lemma {:induction false} WalkEntriesConcat(threshold: nat, path: Path, a: seq<Entry>, b: seq<Entry>)
    ensures WalkEntries(threshold, path, a + b) == WalkEntries(threshold, path, a) + WalkEntries(threshold, path, b)
  {
    if a == [] {
      assert a + b == b;
    } else {
      assert (a + b)[0] == a[0];
      assert (a + b)[1..] == a[1..] + b;
      WalkEntriesConcat(threshold, path, a[1..], b);
    }
  }

  /** The root-level list keeps the listing's order: walking a listing split
      in two lists the first part's roots before the second part's. */
  lemma WalkConcat(threshold: nat, root: Path, a: seq<Entry>, b: seq<Entry>)
    ensures Walk(threshold, root, Listed(a + b)).value
            == Walk(threshold, root, Listed(a)).value + Walk(threshold, root, Listed(b)).value
  {
    WalkEntriesConcat(threshold, root, a, b);
    KeepConcat(threshold, WalkEntries(threshold, root, a), WalkEntries(threshold, root, b));
  }

  /** An entry that can be walked is kept, as its own walk. With
      `WalkEntriesConcat` and `FailedEntryIsSkipped` this fixes the whole list:
      the walks of the walkable entries, in listing order. */
  lemma WalkEntriesSingleton(threshold: nat, path: Path, e: Entry)
    requires !Fails(e)
    ensures WalkEntries(threshold, path, [e]) == [WalkEntry(threshold, path, e).value]
  {
    assert [e][1..] == [];
  }

  /** An entry that cannot be walked is treated as if it were not there, by
      the directory that holds it and by the walk of the root, which still
      succeeds. */
  lemma FailedEntryIsAbsent(threshold: nat, parent: Path, name: string, pre: seq<Entry>, e: Entry, post: seq<Entry>)
    requires Fails(e)
    ensures WalkEntry(threshold, parent, Dir(name, Listed(pre + [e] + post)))
         == WalkEntry(threshold, parent, Dir(name, Listed(pre + post)))
    ensures Walk(threshold, parent, Listed(pre + [e] + post)).Ok?
    ensures Walk(threshold, parent, Listed(pre + [e] + post)) == Walk(threshold, parent, Listed(pre + post))
  {
    FailedEntryIsSkipped(threshold, parent + [name], pre, e, post);
    FailedEntryIsSkipped(threshold, parent, pre, e, post);
  }

  lemma FailedEntryIsSkipped(threshold: nat, path: Path, pre: seq<Entry>, e: Entry, post: seq<Entry>)
    requires Fails(e)
    ensures WalkEntries(threshold, path, pre + [e] + post) == WalkEntries(threshold, path, pre + post)
  {
    WalkEntriesConcat(threshold, path, pre + [e], post);
    WalkEntriesConcat(threshold, path, pre, [e]);
    WalkEntriesConcat(threshold, path, pre, post);
    assert WalkEntries(threshold, path, [e]) == [];
  }

  /** The walk of the root with a threshold is the unfiltered walk with the
      threshold applied to every directory and then to the root-level list. */
  lemma WalkIsPrunedForest(threshold: nat, root: Path, listing: Listing)
    ensures Walk(threshold, root, listing).Ok? == Walk(0, root, listing).Ok?
    ensures Walk(threshold, root, listing).Ok? ==>
              Walk(threshold, root, listing).value
              == Keep(threshold, PruneEach(threshold, Walk(0, root, listing).value))
  {
    if listing.Listed? {
      WalkEntriesArePruned(threshold, root, listing.entries);
      KeepEverything(WalkEntries(0, root, listing.entries));
    }
  }

  /** A root-level entry is listed exactly when its size reaches the
      threshold; one whose size equals the threshold is listed. */
  lemma RootThresholdIsInclusive(threshold: nat, root: Path, listing: Listing, n: DirTree)
    requires Walk(0, root, listing).Ok? && n in Walk(0, root, listing).value
    ensures Walk(threshold, root, listing).Ok?
    ensures Prune(threshold, n) in Walk(threshold, root, listing).value <==> n.size >= threshold
  {
    WalkIsPrunedForest(threshold, root, listing);
    PruneEachMember(threshold, Walk(0, root, listing).value, n);
  }

  /** A child of a directory is kept exactly when its size reaches the
      threshold; one whose size equals the threshold is kept. */
  lemma ChildThresholdIsInclusive(threshold: nat, parent: Path, e: Entry, c: DirTree)
    requires WalkEntry(0, parent, e).Ok? && c in WalkEntry(0, parent, e).value.children
    ensures WalkEntry(threshold, parent, e).Ok?
    ensures Prune(threshold, c) in WalkEntry(threshold, parent, e).value.children <==> c.size >= threshold
  {
    WalkIsPrunedAggregate(threshold, parent, e);
    PruneEachMember(threshold, WalkEntry(0, parent, e).value.children, c);
  }

  /** A worked example: `big.txt` of 2 000 000 bytes beside `sub/`, which holds
      `small.txt` of 500 bytes and `bigger.txt` of 3 000 000 bytes, walked with a
      threshold of 1 000 000. `small.txt` is filtered out, yet `sub` still counts it. */
  lemma ExampleWalk()
    ensures
      Walk(1_000_000, ["data"], Listed([File("big.txt", Ok(2_000_000)), ExampleSub()]))
      == Ok([DirTree(false, ["data", "big.txt"], 2_000_000, []), ExampleSubNode()])
  {
    var t := 1_000_000;
    var root := ["data"];
    var big := File("big.txt", Ok(2_000_000));
    var bigNode := DirTree(false, ["data", "big.txt"], 2_000_000, []);
    assert root + ["big.txt"] == ["data", "big.txt"];
    ExampleSubWalk();
    assert [big, ExampleSub()][1..] == [ExampleSub()];
    assert [ExampleSub()][1..] == [];
    assert WalkEntries(t, root, [ExampleSub()]) == [ExampleSubNode()];
    assert WalkEntries(t, root, [big, ExampleSub()]) == [bigNode, ExampleSubNode()];
    assert Keep(t, [ExampleSubNode()]) == [ExampleSubNode()];
  }

  function ExampleSub(): Entry {
    Dir("sub", Listed([File("small.txt", Ok(500)), File("bigger.txt", Ok(3_000_000))]))
  }

  function ExampleSubNode(): DirTree {
    DirTree(true, ["data", "sub"], 3_000_500, [DirTree(false, ["data", "sub", "bigger.txt"], 3_000_000, [])])
  }

  /** `sub` keeps only `bigger.txt` but its size still includes `small.txt`. */
  lemma ExampleSubWalk()
    ensures WalkEntry(1_000_000, ["data"], ExampleSub()) == Ok(ExampleSubNode())
  {
    var smallNode := DirTree(false, ["data", "sub", "small.txt"], 500, []);
    var biggerNode := DirTree(false, ["data", "sub", "bigger.txt"], 3_000_000, []);
    ExampleSubChildren();
    assert ["data"] + ["sub"] == ["data", "sub"];
    assert Keep(1_000_000, [biggerNode]) == [biggerNode];
    assert Keep(1_000_000, [smallNode, biggerNode]) == [biggerNode];
    assert SumSizes([smallNode, biggerNode]) == 3_000_500;
  }

  lemma ExampleSubChildren()
    ensures WalkEntries(1_000_000, ["data", "sub"], ExampleSub().listing.entries)
         == [DirTree(false, ["data", "sub", "small.txt"], 500, []),
             DirTree(false, ["data", "sub", "bigger.txt"], 3_000_000, [])]
  {
    var t := 1_000_000;
    var subPath := ["data", "sub"];
    var small := File("small.txt", Ok(500));
    var bigger := File("bigger.txt", Ok(3_000_000));
    assert subPath + ["small.txt"] == ["data", "sub", "small.txt"];
    assert subPath + ["bigger.txt"] == ["data", "sub", "bigger.txt"];
    assert [bigger][1..] == [];
    assert [small, bigger][1..] == [bigger];
    assert WalkEntries(t, subPath, [bigger]) == [DirTree(false, ["data", "sub", "bigger.txt"], 3_000_000, [])];
  }
}

=== FILE: dir_tree.dfy ===
/**
  The tree the crawler produces and the renderer consumes, and the threshold
  filter applied to lists of such trees.
 */
module DirTrees {
  import opened FileSystem

  /** One walked entry. For a directory, `size` is the total of its children
      before filtering while `children` holds only the children that passed the
      filter; for a file, `children` is empty. */
  datatype DirTree = DirTree(isDir: bool, path: Path, size: nat, children: seq<DirTree>)

  /** Sum of the sizes of a list of trees. */
  function SumSizes(ts: seq<DirTree>): nat
  {
    if ts == [] then 0 else ts[0].size + SumSizes(ts[1..])
  }

  lemma {:induction false} SumSizesConcat(a: seq<DirTree>, b: seq<DirTree>)
    ensures SumSizes(a + b) == SumSizes(a) + SumSizes(b)
  {
    if a == [] {
      assert a + b == b;
    } else {
      assert (a + b)[1..] == a[1..] + b;
      SumSizesConcat(a[1..], b);
    }
  }

  /** The inclusive threshold filter: the trees of `ts` whose size is at least
      `threshold`, in their original order. */
  function Keep(threshold: nat, ts: seq<DirTree>): (r: seq<DirTree>)
    ensures |r| <= |ts|
    ensures forall t :: t in r ==> t in ts && t.size >= threshold
    ensures forall t :: t in ts && t.size >= threshold ==> t in r
  {
    if ts == [] then []
    else (if ts[0].size >= threshold then [ts[0]] else []) + Keep(threshold, ts[1..])
  }

  /** The trees of `ts` the filter drops. */
  function Below(threshold: nat, ts: seq<DirTree>): (r: seq<DirTree>)
    ensures forall t :: t in r ==> t in ts && t.size < threshold
    ensures forall t :: t in ts && t.size < threshold ==> t in r
  {
    if ts == [] then []
    else (if ts[0].size < threshold then [ts[0]] else []) + Below(threshold, ts[1..])
  }

  /** Filtering keeps the order: it distributes over concatenation. */
  lemma {:induction false} KeepConcat(threshold: nat, a: seq<DirTree>, b: seq<DirTree>)
    ensures Keep(threshold, a + b) == Keep(threshold, a) + Keep(threshold, b)
  {
    if a == [] {
      assert a + b == b;
    } else {
      assert (a + b)[1..] == a[1..] + b;
      KeepConcat(threshold, a[1..], b);
    }
  }

  /** What the filter keeps and what it drops add up to the whole. */
  lemma {:induction false} KeepBelowSplit(threshold: nat, ts: seq<DirTree>)
    ensures SumSizes(Keep(threshold, ts)) + SumSizes(Below(threshold, ts)) == SumSizes(ts)
  {
    if ts != [] {
      KeepBelowSplit(threshold, ts[1..]);
      var h := if ts[0].size >= threshold then [ts[0]] else [];
      SumSizesConcat(h, Keep(threshold, ts[1..]));
      var l := if ts[0].size < threshold then [ts[0]] else [];
      SumSizesConcat(l, Below(threshold, ts[1..]));
    }
  }

  /** A threshold of zero keeps everything. */
  lemma {:induction false} KeepEverything(ts: seq<DirTree>)
    ensures Keep(0, ts) == ts
  {
    if ts != [] {
      KeepEverything(ts[1..]);
      assert ts == [ts[0]] + ts[1..];
    }
  }

  /** Filtering twice is filtering once with the larger threshold. */
  lemma {:induction false} KeepTwice(a: nat, b: nat, ts: seq<DirTree>)
    ensures Keep(b, Keep(a, ts)) == Keep(if a < b then b else a, ts)
  {
    if ts != [] {
      KeepTwice(a, b, ts[1..]);
      var h := if ts[0].size >= a then [ts[0]] else [];
      KeepConcat(b, h, Keep(a, ts[1..]));
    }
  }

  /** The filter applied at every level of a tree, below its root: a node keeps
      its own size and loses the children under the threshold. This is the
      filter of the crawler taken as a separate pass over an unfiltered tree. */
  function Prune(threshold: nat, n: DirTree): (r: DirTree)
    decreases n
    ensures r.isDir == n.isDir && r.path == n.path && r.size == n.size
    ensures forall c :: c in r.children ==> c.size >= threshold
  {
    n.(children := Keep(threshold, PruneEach(threshold, n.children)))
  }

  function PruneEach(threshold: nat, ts: seq<DirTree>): (r: seq<DirTree>)
    decreases ts
    ensures |r| == |ts|
    ensures forall i :: 0 <= i < |ts| ==> r[i].size == ts[i].size
  {
    if ts == [] then [] else [Prune(threshold, ts[0])] + PruneEach(threshold, ts[1..])
  }

  lemma {:induction false} PruneEachMember(threshold: nat, ts: seq<DirTree>, t: DirTree)
    requires t in ts
    ensures Prune(threshold, t) in PruneEach(threshold, ts)
  {
    if ts[0] != t {
      PruneEachMember(threshold, ts[1..], t);
    }
  }

  lemma {:induction false} PruneEachConcat(threshold: nat, a: seq<DirTree>, b: seq<DirTree>)
    ensures PruneEach(threshold, a + b) == PruneEach(threshold, a) + PruneEach(threshold, b)
  {
    if a == [] {
      assert a + b == b;
    } else {
      assert (a + b)[1..] == a[1..] + b;
      PruneEachConcat(threshold, a[1..], b);
    }
  }

  /** Pruning does not change sizes, so it commutes with the filter. */
  lemma {:induction false} PruneEachKeep(a: nat, b: nat, ts: seq<DirTree>)
    ensures PruneEach(b, Keep(a, ts)) == Keep(a, PruneEach(b, ts))
  {
    if ts != [] {
      PruneEachKeep(a, b, ts[1..]);
      var h := if ts[0].size >= a then [ts[0]] else [];
      PruneEachConcat(b, h, Keep(a, ts[1..]));
      var p := PruneEach(b, ts);
      assert p == [Prune(b, ts[0])] + PruneEach(b, ts[1..]);
      assert p[1..] == PruneEach(b, ts[1..]);
    }
  }

  /** Pruning with one threshold and then another is pruning with the larger. */
  lemma {:induction false} PruneTwice(a: nat, b: nat, n: DirTree)
    decreases n
    ensures Prune(b, Prune(a, n)) == Prune(if a < b then b else a, n)
  {
    var m := if a < b then b else a;
    var cs := n.children;
    PruneEachTwice(a, b, cs);
    calc {
      Prune(b, Prune(a, n)).children;
      Keep(b, PruneEach(b, Keep(a, PruneEach(a, cs))));
      { PruneEachKeep(a, b, PruneEach(a, cs)); }
      Keep(b, Keep(a, PruneEach(b, PruneEach(a, cs))));
      { KeepTwice(a, b, PruneEach(b, PruneEach(a, cs))); }
      Keep(m, PruneEach(b, PruneEach(a, cs)));
      Keep(m, PruneEach(m, cs));
    }
  }

  lemma {:induction false} PruneEachTwice(a: nat, b: nat, ts: seq<DirTree>)
    decreases ts
    ensures PruneEach(b, PruneEach(a, ts)) == PruneEach(if a < b then b else a, ts)
  {
    if ts != [] {
      PruneTwice(a, b, ts[0]);
      PruneEachTwice(a, b, ts[1..]);
      var p := PruneEach(a, ts);
      assert p[0] == Prune(a, ts[0]);
      assert p[1..] == PruneEach(a, ts[1..]);
    }
  }

  /** The shape of an unfiltered crawl: a file has no children and a
      directory's size is the sum of its children's sizes. */
  predicate Aggregated(n: DirTree)
    decreases n
  {
    && (!n.isDir ==> n.children == [])
    && (n.isDir ==> n.size == SumSizes(n.children))
    && forall c :: c in n.children ==> Aggregated(c)
  }

  /** Total length of the files in a tree, as far as its children list goes. */
  function FileBytes(n: DirTree): nat
    decreases n
  {
    if n.isDir then FileBytesAll(n.children) else n.size
  }

  function FileBytesAll(ts: seq<DirTree>): nat
    decreases ts
  {
    if ts == [] then 0 else FileBytes(ts[0]) + FileBytesAll(ts[1..])
  }

  /** In an unfiltered tree, every node's size is the total length of the
      files beneath it. */
  lemma {:induction false} AggregatedSizeIsFileBytes(n: DirTree)
    requires Aggregated(n)
    decreases n
    ensures n.size == FileBytes(n)
  {
    if n.isDir {
      AggregatedSizesAreFileBytes(n.children);
    }
  }

  lemma {:induction false} AggregatedSizesAreFileBytes(ts: seq<DirTree>)
    requires forall c :: c in ts ==> Aggregated(c)
    decreases ts
    ensures SumSizes(ts) == FileBytesAll(ts)
  {
    if ts != [] {
      AggregatedSizeIsFileBytes(ts[0]);
      AggregatedSizesAreFileBytes(ts[1..]);
    }
  }

  /** Every node's path is its parent's path extended by one component. */
  predicate Rooted(parent: Path, n: DirTree)
    decreases n
  {
    && |n.path| == |parent| + 1
    && n.path[..|parent|] == parent
    && forall c :: c in n.children ==> Rooted(n.path, c)
  }
}

=== FILE: file_system.dfy ===
/**
  The abstract filesystem the crawler walks.

  The crawler only ever asks three things of the filesystem: list a directory,
  produce the next entry of a listing, and read a file's metadata. Each of these
  can fail. Instead of calling a real filesystem, the model takes the answers to
  all of those calls up front, as a finite tree whose nodes record either the
  answer or the failure.
 */
module FileSystem {

  /** The outcome of one filesystem call. The kind of error plays no role. */
  datatype IoResult<+T> = Ok(value: T) | Err

  /** A path as its sequence of components; the last one is the entry's own name. */
  type Path = seq<string>

  /** One item yielded by listing a directory. */
  datatype Entry =
    | Broken                                   // the listing yielded an error instead of an entry
    | File(name: string, meta: IoResult<nat>)  // not a directory; `meta` is the metadata read (its length)
    | Dir(name: string, listing: Listing)      // a directory and the result of listing it

  /** The result of listing a directory, in the order the listing yields entries. */
  datatype Listing = Unreadable | Listed(entries: seq<Entry>)

  /** The entries the crawler cannot walk: a broken entry, a file whose
      metadata cannot be read, a directory that cannot be listed. */
  predicate Fails(e: Entry) {
    match e
    case Broken => true
    case File(_, meta) => meta.Err?
    case Dir(_, listing) => listing.Unreadable?
  }

  /** Total length of the files reachable from `e` through entries that can be
      walked. A failing entry, and everything beneath it, contributes nothing. */
  function Bytes(e: Entry): nat
    decreases e
  {
    match e
    case Broken => 0
    case File(_, meta) => if meta.Ok? then meta.value else 0
    case Dir(_, listing) => ListingBytes(listing)
  }

  function ListingBytes(listing: Listing): nat
    decreases listing
  {
    match listing
    case Unreadable => 0
    case Listed(es) => BytesAll(es)
  }

  function BytesAll(es: seq<Entry>): nat
    decreases es
  {
    if es == [] then 0 else Bytes(es[0]) + BytesAll(es[1..])
  }
}

=== FILE: renderer.dfy ===
/**
  The renderer: a pre-order listing of the forest, one line per node, indented
  by one tab per level of nesting and showing the entry's name and size.
 */
module Renderer {
  import opened FileSystem
  import opened DirTrees
  import opened Units
  import Crawler

  /** One line of the listing before it is turned into text. */
  datatype Record = Record(level: nat, name: string, size: nat)

  /** The final component of a path. */
  function FileName(path: Path): string
    requires |path| > 0
  {
    path[|path| - 1]
  }

  /** Every node of the tree has a final path component to display. */
  predicate Named(n: DirTree)
    decreases n
  {
    |n.path| > 0 && forall i :: 0 <= i < |n.children| ==> Named(n.children[i])
  }

  predicate NamedAll(forest: seq<DirTree>) {
    forall i :: 0 <= i < |forest| ==> Named(forest[i])
  }

  /** Number of nodes in a tree and in a forest. */
  function Count(n: DirTree): (c: nat)
    decreases n
    ensures c >= 1
  {
    1 + CountAll(n.children)
  }

  function CountAll(forest: seq<DirTree>): nat
    decreases forest
  {
    if forest == [] then 0 else Count(forest[0]) + CountAll(forest[1..])
  }

  /** The listing of a whole forest: its roots at level 0. */
  function RenderTree(forest: seq<DirTree>): (r: seq<Record>)
    requires NamedAll(forest)
    ensures |r| == CountAll(forest)
    ensures forest != [] ==> r[0] == Record(0, FileName(forest[0].path), forest[0].size)
  {
    RenderEach(0, forest)
  }

  /** A node's line, then the lines of its children one level deeper. */
  function RenderAt(level: nat, n: DirTree): (r: seq<Record>)
    requires Named(n)
    decreases n
    ensures |r| == Count(n)
    ensures r[0] == Record(level, FileName(n.path), n.size)
    ensures forall i :: 1 <= i < |r| ==> r[i].level > level
  {
    [Record(level, FileName(n.path), n.size)] + RenderEach(level + 1, n.children)
  }

  /** The trees of a forest rendered one after another, all starting at `level`. */
  function RenderEach(level: nat, forest: seq<DirTree>): (r: seq<Record>)
    requires NamedAll(forest)
    decreases forest
    ensures |r| == CountAll(forest)
    ensures forall i :: 0 <= i < |r| ==> r[i].level >= level
    ensures forest != [] ==> r[0] == Record(level, FileName(forest[0].path), forest[0].size)
  {
    if forest == [] then []
    else RenderAt(level, forest[0]) + RenderEach(level, forest[1..])
  }

  /** The records at exactly `level`, in order. */
  function AtLevel(level: nat, recs: seq<Record>): (r: seq<Record>)
    ensures forall x :: x in r ==> x in recs && x.level == level
  {
    if recs == [] then []
    else (if recs[0].level == level then [recs[0]] else []) + AtLevel(level, recs[1..])
  }

  lemma {:induction false} AtLevelConcat(level: nat, a: seq<Record>, b: seq<Record>)
    ensures AtLevel(level, a + b) == AtLevel(level, a) + AtLevel(level, b)
  {
    if a == [] {
      assert a + b == b;
    } else {
      assert (a + b)[1..] == a[1..] + b;
      AtLevelConcat(level, a[1..], b);
    }
  }

  lemma {:induction false} AtLevelNone(level: nat, recs: seq<Record>)
    requires forall i :: 0 <= i < |recs| ==> recs[i].level > level
    ensures AtLevel(level, recs) == []
  {
    if recs != [] {
      AtLevelNone(level, recs[1..]);
    }
  }

  /** The lines a forest's roots would get at `level`, in forest order. */
  function RootRecords(level: nat, forest: seq<DirTree>): (r: seq<Record>)
    requires NamedAll(forest)
    ensures |r| == |forest|
    ensures forall i :: 0 <= i < |r| ==> r[i] == Record(level, FileName(forest[i].path), forest[i].size)
  {
    if forest == [] then [] else [Record(level, FileName(forest[0].path), forest[0].size)] + RootRecords(level, forest[1..])
  }

  /** The lines at level 0 are the roots of the forest, in forest order. */
  lemma RootsAtLevelZero(forest: seq<DirTree>)
    requires NamedAll(forest)
    ensures AtLevel(0, RenderTree(forest)) == RootRecords(0, forest)
  {
    RootsAtLevel(0, forest);
  }

  lemma {:induction false} RootsAtLevel(level: nat, forest: seq<DirTree>)
    requires NamedAll(forest)
    decreases forest
    ensures AtLevel(level, RenderEach(level, forest)) == RootRecords(level, forest)
  {
    if forest != [] {
      var n := forest[0];
      var head := [Record(level, FileName(n.path), n.size)];
      var below := RenderEach(level + 1, n.children);
      var rest := RenderEach(level, forest[1..]);
      assert RenderEach(level, forest) == head + below + rest;
      AtLevelNone(level, below);
      AtLevelConcat(level, head, below);
      AtLevelConcat(level, head + below, rest);
      assert AtLevel(level, head) == head;
      RootsAtLevel(level, forest[1..]);
      assert RootRecords(level, forest) == head + RootRecords(level, forest[1..]);
    }
  }

  /** In a node's part of the listing, the lines one level below the node are
      its children's, in stored order. */
  lemma ChildrenOneLevelDeeper(level: nat, n: DirTree)
    requires Named(n)
    ensures AtLevel(level + 1, RenderAt(level, n)) == RootRecords(level + 1, n.children)
  {
    var head := [Record(level, FileName(n.path), n.size)];
    AtLevelConcat(level + 1, head, RenderEach(level + 1, n.children));
    RootsAtLevel(level + 1, n.children);
  }

  /** A tree as the listing shows it: name, size and children, in order. */
  datatype Outline = Outline(name: string, size: nat, children: seq<Outline>)

  function OutlineOf(n: DirTree): Outline
    requires Named(n)
    decreases n
  {
    Outline(FileName(n.path), n.size, OutlineAll(n.children))
  }

  function OutlineAll(forest: seq<DirTree>): seq<Outline>
    requires NamedAll(forest)
    decreases forest
  {
    if forest == [] then [] else [OutlineOf(forest[0])] + OutlineAll(forest[1..])
  }

  /** The first index at or after `i` whose record is not nested below `level`. */
  function SubtreeEnd(level: nat, recs: seq<Record>, i: nat): (k: nat)
    requires i <= |recs|
    decreases |recs| - i
    ensures i <= k <= |recs|
    ensures forall j :: i <= j < k ==> recs[j].level > level
    ensures k < |recs| ==> recs[k].level <= level
  {
    if i == |recs| || recs[i].level <= level then i else SubtreeEnd(level, recs, i + 1)
  }

  /** Reads a listing back into outlines: each record at `level` opens a node
      whose children are the records nested below it, up to the next record
      at `level` or above. */
  function Parse(level: nat, recs: seq<Record>): seq<Outline>
    decreases |recs|
  {
    if recs == [] then []
    else
      var k := SubtreeEnd(level, recs, 1);
      [Outline(recs[0].name, recs[0].size, Parse(level + 1, recs[1..k]))] + Parse(level, recs[k..])
  }

  /** The listing determines the forest: reading it back gives every node's
      name and size, with its children in stored order under it. So each line
      comes right before its subtree's lines and each child sits exactly one
      level below its parent. */
  lemma ParseRenderRoundTrip(forest: seq<DirTree>)
    requires NamedAll(forest)
    ensures Parse(0, RenderTree(forest)) == OutlineAll(forest)
  {
    ParseRenderEach(0, forest);
  }

  lemma {:induction false} ParseRenderEach(level: nat, forest: seq<DirTree>)
    requires NamedAll(forest)
    decreases forest
    ensures Parse(level, RenderEach(level, forest)) == OutlineAll(forest)
  {
    if forest != [] {
      var n := forest[0];
      var recs := RenderEach(level, forest);
      var below := RenderEach(level + 1, n.children);
      var rest := RenderEach(level, forest[1..]);
      assert recs == RenderAt(level, n) + rest;
      assert RenderAt(level, n) == [recs[0]] + below;
      var k := SubtreeEnd(level, recs, 1);
      assert forall j :: 1 <= j < 1 + |below| ==> recs[j] == below[j - 1];
      assert 1 + |below| < |recs| ==> recs[1 + |below|] == rest[0];
      assert k == 1 + |below|;
      assert recs[1..k] == below;
      assert recs[k..] == rest;
      ParseRenderEach(level + 1, n.children);
      ParseRenderEach(level, forest[1..]);
    }
  }

  /** `k` tab characters. */
  function Tabs(k: nat): (s: string)
    ensures |s| == k
    ensures forall i :: 0 <= i < k ==> s[i] == '\t'
  {
    if k == 0 then "" else "\t" + Tabs(k - 1)
  }

  /** Number of tab characters at the start of `s`. */
  function LeadingTabs(s: string): nat {
    if s != [] && s[0] == '\t' then 1 + LeadingTabs(s[1..]) else 0
  }

  /** A size in the display unit: the value, then the unit's symbol. The value
      is the byte count divided by the unit's multiplier, as the host's number
      formatting writes it; `show` stands for that formatting. */
  function SizeText(bytes: nat, unit: SizeUnit, show: (nat, nat) -> string): (s: string)
    ensures |s| >= 1 && s[|s| - 1..] == Symbol(unit)
    ensures s[..|s| - 1] == show(bytes, Multiplier(unit))
  {
    show(bytes, Multiplier(unit)) + Symbol(unit)
  }

  /** One line of output: a tab per level, the name, a space, the size and a
      line break. */
  function RecordLine(rec: Record, unit: SizeUnit, show: (nat, nat) -> string): (s: string)
    ensures |s| == rec.level + |rec.name| + |SizeText(rec.size, unit, show)| + 2
    ensures s[..rec.level] == Tabs(rec.level)
    ensures s[rec.level..rec.level + |rec.name|] == rec.name
    ensures s[rec.level + |rec.name|] == ' '
    ensures s[rec.level + |rec.name| + 1..] == SizeText(rec.size, unit, show) + "\n"
  {
    Tabs(rec.level) + rec.name + " " + SizeText(rec.size, unit, show) + "\n"
  }

  /** A line starts with exactly as many tabs as its level, provided the name
      does not itself start with a tab. */
  lemma LineIndentIsLevel(rec: Record, unit: SizeUnit, show: (nat, nat) -> string)
    requires rec.name == [] || rec.name[0] != '\t'
    ensures LeadingTabs(RecordLine(rec, unit, show)) == rec.level
  {
    var s := RecordLine(rec, unit, show);
    LeadingTabsOfTabs(rec.level, s[rec.level..]);
    assert s == Tabs(rec.level) + s[rec.level..];
  }

  lemma {:induction false} LeadingTabsOfTabs(k: nat, rest: string)
    requires rest == [] || rest[0] != '\t'
    ensures LeadingTabs(Tabs(k) + rest) == k
  {
    if k > 0 {
      assert (Tabs(k) + rest)[1..] == Tabs(k - 1) + rest;
      LeadingTabsOfTabs(k - 1, rest);
    }
  }

  /** The whole output, one line per node in pre-order. */
  function RenderLines(forest: seq<DirTree>, unit: SizeUnit, show: (nat, nat) -> string): (r: seq<string>)
    requires NamedAll(forest)
    ensures |r| == CountAll(forest)
  {
    var recs := RenderTree(forest);
    seq(|recs|, i requires 0 <= i < |recs| => RecordLine(recs[i], unit, show))
  }

  /** No record's name starts with a tab, so indentation alone shows levels. */
  predicate PlainNames(recs: seq<Record>) {
    forall i :: 0 <= i < |recs| ==> recs[i].name == [] || recs[i].name[0] != '\t'
  }

  /** Line i of the output shows the i-th record of the pre-order listing: its
      indentation is the record's level, then comes the record's name, and the
      line ends with the record's size text and a line break. */
  lemma RenderLinesShowRecords(forest: seq<DirTree>, unit: SizeUnit, show: (nat, nat) -> string)
    requires NamedAll(forest)
    ensures var r := RenderLines(forest, unit, show);
            var recs := RenderTree(forest);
            && |r| == |recs|
            && (forall i :: 0 <= i < |r| ==>
                  && r[i][..recs[i].level] == Tabs(recs[i].level)
                  && r[i][recs[i].level..recs[i].level + |recs[i].name|] == recs[i].name
                  && r[i][recs[i].level + |recs[i].name|] == ' '
                  && r[i][recs[i].level + |recs[i].name| + 1..] == SizeText(recs[i].size, unit, show) + "\n")
            && (PlainNames(recs) ==> forall i :: 0 <= i < |r| ==> LeadingTabs(r[i]) == recs[i].level)
  {
    var r := RenderLines(forest, unit, show);
    var recs := RenderTree(forest);
    if PlainNames(recs) {
      forall i | 0 <= i < |r|
        ensures LeadingTabs(r[i]) == recs[i].level
      {
        LineIndentIsLevel(recs[i], unit, show);
      }
    }
  }

  /** Every successful walk can be rendered, and each node is shown under the
      name of the entry it came from. */
  lemma WalkIsRenderable(threshold: nat, root: Path, listing: Listing)
    ensures Crawler.Walk(threshold, root, listing).Ok? ==> NamedAll(Crawler.Walk(threshold, root, listing).value)
  {
    if Crawler.Walk(threshold, root, listing).Ok? {
      var forest := Crawler.Walk(threshold, root, listing).value;
      forall i | 0 <= i < |forest|
        ensures Named(forest[i])
      {
        RootedIsNamed(root, forest[i]);
      }
    }
  }

  lemma {:induction false} RootedIsNamed(parent: Path, n: DirTree)
    requires Rooted(parent, n)
    decreases n
    ensures Named(n)
  {
    forall i | 0 <= i < |n.children|
      ensures Named(n.children[i])
    {
      RootedIsNamed(n.path, n.children[i]);
    }
  }

  /** The listing of `root -> child -> grandchild` puts the grandchild two
      levels below the root and one below the child. */
  lemma NestingExample()
    ensures
      var grandchild := DirTree(false, ["r", "a", "g"], 1, []);
      var child := DirTree(true, ["r", "a"], 1, [grandchild]);
      var root := DirTree(true, ["r"], 1, [child]);
      && NamedAll([root])
      && RenderTree([root]) == [Record(0, "r", 1), Record(1, "a", 1), Record(2, "g", 1)]
  {
  }
}

=== FILE: size_unit.dfy ===
/**
  The display units: decimal multipliers and one-letter symbols.
 */
module Units {

  datatype SizeUnit = Byte | Kilobyte | Megabyte | Gigabyte

  /** Position of a unit in increasing order of size. */
  function Rank(u: SizeUnit): nat {
    match u
    case Byte => 0
    case Kilobyte => 1
    case Megabyte => 2
    case Gigabyte => 3
  }

  function Pow(base: nat, k: nat): (r: nat)
    ensures base >= 1 ==> r >= 1
  {
    if k == 0 then 1 else base * Pow(base, k - 1)
  }

  /** Bytes per unit: decimal (powers of 1000), not binary. */
  function Multiplier(u: SizeUnit): (m: nat)
    ensures m == Pow(1000, Rank(u))
  {
    match u
    case Byte => 1
    case Kilobyte => 1_000
    case Megabyte => 1_000_000
    case Gigabyte => assert Pow(1000, 3) == 1000 * Pow(1000, 2); 1_000_000_000
  }

  /** A larger unit has a larger multiplier, and is a whole power of 1000
      times the smaller one. */
  lemma MultiplierIncreasing(u: SizeUnit, v: SizeUnit)
    requires Rank(u) < Rank(v)
    ensures Multiplier(u) < Multiplier(v)
    ensures Multiplier(v) == Multiplier(u) * Pow(1000, Rank(v) - Rank(u))
  {
  }

  /** The unit's symbol as the size display writes it after the value. */
  function Symbol(u: SizeUnit): (s: string)
    ensures |s| == 1 && s in {"b", "K", "M", "G"}
  {
    match u
    case Byte => "b"
    case Kilobyte => "K"
    case Megabyte => "M"
    case Gigabyte => "G"
  }

  /** The unit a symbol names: the inverse of `Symbol`. */
  function UnitOfSymbol(s: string): (r: SizeUnit)
    requires s in {"b", "K", "M", "G"}
  {
    if s == "b" then Byte
    else if s == "K" then Kilobyte
    else if s == "M" then Megabyte
    else Gigabyte
  }

  /** Different units display differently: a symbol names its unit. */
  lemma SymbolRoundTrip(u: SizeUnit)
    ensures Symbol(u) in {"b", "K", "M", "G"}
    ensures UnitOfSymbol(Symbol(u)) == u
  {
  }

  lemma SymbolInjective(u: SizeUnit, v: SizeUnit)
    ensures Symbol(u) == Symbol(v) <==> u == v
  {
  }
}
